=== FILE: README.md ===
# Face-recognition attendance: verified model of the enrollment and session logic

The system enrolls people by filming their faces and later takes attendance
by recognizing them. It has two scripts with real logic in them.

- **Enrollment** (`add_faces.py`) asks for a roll number, name, department
  and semester. It keeps one face crop in ten until 100 are held or the
  operator quits. It builds the composite label `roll_name_department_semester`
  and appends 100 copies of it to the label file. It reshapes the crops into
  100 feature rows and appends them to the feature file.
- **The attendance session** (`test.py`) starts by reading the day's CSV log
  into a dedupe set of roll numbers. For every detected face it classifies the
  crop, skips the `Unknown` and `Error` outputs, and splits the label on `_`.
  A roll already in the set gets a spoken reminder, at most one per roll every
  5 seconds. A new roll gets a snapshot file, a log row (preceded by a header
  row when the file was absent at start or is empty), a place in the set and
  one spoken announcement.

The model has five files.

- `wrappers.dfy`: `Option` and `Result`.
- `labels.dfy`: Python's `str.split` and `str.join` for one separator, the
  label builder, the label parser and their round trip.
- `attendance.dfy`: the bootstrap loop (`LoadPresent`), the per-face step as
  a specification function (`Next`) and its runs (`Run`), and the session as a
  class (`Session`) whose `Step` and `ProcessFrame` update the set, the reminder
  map, the log, the snapshots and the speech in place.
- `attendance_properties.dfy`: what a whole session guarantees. Each roll is
  logged at most once. Reminders are debounced. The dedupe set stays equal to
  what a restart would read back from the log. Header rows are counted.
- `enrollment.dfy`: the sampler as a specification (`Sampled`) and as the
  capture loop (`CollectSamples`), numpy's `reshape(100, -1)`, and the two
  store files as a class (`FeatureStore`) whose `Commit` rewrites them.

Some of what the code does is easy to miss, and the model keeps it as written.

- The reminder map exists to stop the speech from repeating for people
  already logged (test.py:11-12). Logging a new entry does not start that
  roll's timer, though, and a roll without a timer counts as last reminded at
  time 0. So the next detection of a roll just logged speaks a reminder
  straight away (`ReminderRightAfterLogging`).
- Whether the header row is written depends on a file-existence flag read
  once at session start (test.py:66,170). When the log was absent at start,
  every new entry writes another header row (`HeaderRows`), and a restart then
  reads `ROLL_NUMBER` as a roll (`FreshLogRestartReadsHeaderAsRoll`).
- Enrollment announces that 100 samples are required (add_faces.py:35) and
  stops at 100 samples or on 'q' (add_faces.py:60-62), but commits whatever it
  holds. numpy reshapes any batch of up to 100 crops into 100 rows, 75 values
  wide per crop, and an empty batch into 100 empty rows. The label file always
  grows by 100 labels. A short or empty batch cannot then be appended to a
  stored matrix of full crops (`EarlyQuitMisalignsStore`), and an empty one
  starts a new feature file of 100 empty rows (`Register`).
- The image write reports failure by its return value, which is ignored
  (test.py:164): when it writes nothing, the row is still logged and the roll
  still admitted.

## Model

| member | source | states |
|---|---|---|
| Labels.Split | test.py:140 | `str.split` on one character: at least one part, no part holds the separator, and joining the parts gives the input back |
| Labels.SplitJoin | test.py:140 | splitting the join of separator-free parts gives back exactly those parts |
| Labels.BuildLabel | add_faces.py:32 | the label is roll, name, department and semester joined with `_` |
| Labels.ParseLabel | test.py:138-144 | a label is skipped (an IndexError) exactly when it holds no `_`; otherwise the roll is the text before the first `_`, and roll and name hold no `_` |
| Labels.ParseJoined | test.py:140-144 | with four or more parts the first four are the fields and the rest is dropped; with two or three, department and semester are "N/A" |
| Labels.ParseBuildRoundTrip | add_faces.py:32 | parsing the label enrollment builds returns the four fields whenever none of them holds `_` |
| Attendance.FirstColumnMembers | test.py:75-77 | a roll is in the first-column set exactly when some non-empty row starts with it |
| Attendance.BootstrappedMembers | test.py:68-77 | a roll is bootstrapped exactly when a non-empty row after the first one starts with it; an absent or empty file gives the empty set |
| Attendance.LoadPresent | test.py:68-77 | the bootstrap loop yields the bootstrapped set: the first column of every non-empty row after the header |
| Attendance.DecimalString | test.py:162 | the epoch second is written as a non-empty string of decimal digits, with no leading zero, whose value read from the left is the epoch second |
| Attendance.SnapshotPlacement | test.py:162-163 | `SnapshotPath` joins the day's directory and `roll_date_epoch.jpg` as Windows does: the file name always ends the path, and the path lies in the day's directory exactly when the name does not start with a separator or a drive |
| Attendance.SnapshotPathsDistinct | test.py:162-163 | two different `_`-free rolls never get the same snapshot path string, whatever the epochs and wherever the join puts the files |
| Attendance.Resolve | test.py:122-138 | a classifier ValueError and the `Unknown`/`Error` outputs are skipped; any other output is handled as the parser reads it |
| Attendance.Next | test.py:122-180 | written with `OutputOf` (a ValueError handled as "Error", test.py:122-125), `LastSpoke` (0 for a roll never reminded, test.py:152), `NewRow` (the header's six columns, test.py:166) and `NeedsHeader` (test.py:170): skipped faces change nothing; a present roll changes only the reminder state, and gets a reminder and a new timestamp exactly when more than 5 s passed; a new roll gets a snapshot when the image write succeeds, and the row (after a header when needed), the set entry and one announcement unless the image write or the append raises |
| Attendance.Run | test.py:118 | the detections are handled in order; the set only grows, and the log, the snapshots and the speech are only appended to |
| Attendance.Session.constructor | test.py:62-87 | a session starts with the bootstrapped set, an empty reminder map, the file's rows as the log, and "N/A" as the last logged name |
| Attendance.Session.Step | test.py:122-180 | one detected face updates the session's fields exactly as `Next` says |
| Attendance.Session.LogEntry | test.py:158-176 | the new-entry branch updates the session's fields in place as `Enter`, the new-entry part of `Next`, says |
| Attendance.Session.ProcessFrame | test.py:118-180 | the faces of a frame, in detector order, update the session as the run of `Next` over them |
| AttendanceProperties.NewRowIsNotHeader | test.py:162-172 | a logged row never equals the header row |
| AttendanceProperties.NextLogsRollOnce | test.py:148-174 | one step adds a row for a roll exactly when it adds the roll to the set, and the set never shrinks |
| AttendanceProperties.RunLogsRollOnce | test.py:148-174 | over any run, a roll gains one row if it joined the set and none otherwise, so a roll present at the start is never logged again |
| AttendanceProperties.RemindsOfSpeaks | test.py:148-156 | a step speaks a reminder for a roll, and keeps its time, exactly when the roll is present and more than 5 s passed since its last reminder; a detection of another roll leaves the roll's reminder time alone |
| AttendanceProperties.DebounceWindow | test.py:148-156 | however other people's detections interleave, the detections of a present roll within one 5-second window speak at most one reminder for it |
| AttendanceProperties.DebounceWindowAlone | test.py:148-156 | with only one present roll in view, its detections within one 5-second window speak at most one reminder and leave the set, the log and the snapshots alone |
| AttendanceProperties.RemindersResumeAfterDelay | test.py:152-156 | two already-present detections more than 5 s apart both speak a reminder when the first one does |
| AttendanceProperties.ReminderRightAfterLogging | test.py:148-176 | logging a roll does not start its reminder timer: the next detection of it speaks a reminder right after the announcement |
| AttendanceProperties.NextKeepsDedupeDerived | test.py:166-174 | when the log existed at start, one step keeps the set equal to what a restart would bootstrap from the log |
| AttendanceProperties.DedupeSetMatchesLog | test.py:68-77 | when the log existed at start, the set equals what a restart would bootstrap from the log after any run |
| AttendanceProperties.NextKeepsFreshDedupeBounded | test.py:158-174 | when the log was absent at start, one step keeps every roll of the set in the log's first column after the header, and adds nothing else to that column but "ROLL_NUMBER" |
| AttendanceProperties.FreshDedupeSetMatchesLog | test.py:66-77 | when the log was absent at start, after any run a restart bootstraps every roll of the set, so it re-admits nobody, and at most "ROLL_NUMBER" besides |
| AttendanceProperties.FreshLogRestartReadsHeaderAsRoll | test.py:66-77 | with the log absent at start, two new entries write a second header row, and a restart reads "ROLL_NUMBER" as a present roll |
| AttendanceProperties.NextHeaders | test.py:166-174 | one step adds at most one roll, changes the log only when it adds one, and then adds a header row exactly when one is needed |
| AttendanceProperties.HeaderRows | test.py:170-171 | with the log absent at start, every new roll brings its own header row; with it present, a header is written only for the first entry into an empty file |
| Enrollment.Sampled | add_faces.py:50-51 | the sampler never holds more than 100 crops |
| Enrollment.SampledShape | add_faces.py:45-53 | after d detections min(100, ceil(d/10)) crops are held, and crop j is detection 10·j |
| Enrollment.SampleFrame | add_faces.py:45-53 | the faces of one frame advance the counter once each and extend the held crops as the sampler does |
| Enrollment.CollectSamples | add_faces.py:37-62 | the loop reads frames until the stream ends or a frame where 'q' was pressed or 100 crops are held; the crops are the sampler's, with their count and positions |
| Enrollment.Reshape | add_faces.py:68-69 | reshaping fails exactly when the values do not split into 100 rows; otherwise 100 rows of equal width that hold every value in order |
| Enrollment.CutConcat | add_faces.py:68-69 | crops of one width, flattened and cut back into rows of that width, are the crops |
| Enrollment.ReshapeCrops | add_faces.py:68-69 | up to 100 crops of 50x50x3 reshape into 100 rows of 75 values per crop, narrower than a crop when fewer than 100 |
| Enrollment.EmptyBatchReshapes | add_faces.py:68-69 | no crop at all reshapes into 100 empty rows, without an error |
| Enrollment.ReshapeFullBatch | add_faces.py:68-69 | a full batch of 100 crops reshapes into the crops themselves, one per row |
| Enrollment.AppendLabels | add_faces.py:72-82 | the new label list is the stored one, or nothing when absent, followed by 100 copies of the label |
| Enrollment.AppendRows | add_faces.py:84-94 | the new matrix is the batch when the file is absent; otherwise the stored rows followed by the batch, and an error exactly when the widths differ |
| Enrollment.CommitKeepsAlignment | add_faces.py:73-94 | a commit keeps as many labels as rows when the store was aligned or both files were absent |
| Enrollment.LoneMissingLabelsBreakAlignment | add_faces.py:73-94 | with only the label file missing, a commit leaves fewer labels than rows |
| Enrollment.LoneMissingFeaturesBreakAlignment | add_faces.py:73-94 | with only the feature file missing, a commit onto a non-empty label list leaves more labels than rows |
| Enrollment.EarlyQuitMisalignsStore | add_faces.py:61-92 | an early quit, with any number of crops under 100 and none at all included, grows the label list by 100 while the narrower rows cannot be appended |
| Enrollment.FeatureStore.Commit | add_faces.py:68-94 | a reshape error writes nothing; otherwise the label file is rewritten, then the feature file is rewritten or, on a width mismatch, left as it was; a successful commit keeps alignment and leaves a feature matrix whose rows all have the batch's width |
| Enrollment.Register | add_faces.py:26-94 | the crops are the sampler's crops of the frames read, and reading stopped at the first frame that ends the stream, carries 'q' or brings the crops to 100; the label file always grows by 100 labels; no crop starts a new feature file of 100 empty rows, and cannot be appended to a stored matrix of non-zero width; a full batch into an aligned store of crop-wide rows, or into no store, appends the crops as rows and keeps the store aligned; a short batch into an aligned store of crop-wide rows fails to append and leaves the feature file as it was, and into no feature file starts one of 100 rows of 75 values per crop |

## Left out

- Camera, Haar-cascade detector, crop and resize, window display and key
  reading: each frame is its detected crops and a quit flag, and each crop is
  a flattened sequence of values.
- Crops of other sizes: the resize always yields 50x50x3 values. `Reshape`
  concatenates crops of any length; numpy would not build one array from crops
  of different shapes.
- The kNN classifier and its training: each detection carries the
  classifier's result, a label or a ValueError.
- The overlay texts, the status strings and the counters drawn on screen.
  `lastLogged` is kept because the session updates it.
- Files: the CSV log is its rows, and a file of size 0 is a file with no rows.
  The label and feature files are values, `None` when absent. Pickle, the CSV
  quoting rules and directory creation are not modelled.
- I/O failures: the image write can write nothing or raise, and the log
  append can raise; which one happens is an input of each detection. Which
  rolls make the image write fail (a `/` naming a missing subdirectory, a
  character Windows forbids) is not modelled. An append either writes all of
  its rows or none. An exception while reading the log at start, and one from
  the speech engine, are not modelled.
- SnapshotPathsDistinct: the paths differ as strings. Windows file names
  ignore case, so rolls such as "A1" and "a1" still name the same file.
- Speech: the spoken texts are a sequence.
- Time: the clock reading, the time of day, the date and the epoch second are
  inputs of each detection. The clock is a real number, not a float.
- Path separators of other systems: the snapshot directory is joined with a
  backslash, as on Windows, the only system the speech engine runs on.
- The prompts for the four fields: they are parameters.
- The missing-store check and the exit at session start: a session starts
  from a trained classifier.
- The dashboard (`app.py`): presentation only.

=== FILE: attendance.dfy ===
/**
 * The attendance session of the recognizer (test.py): the day's dedupe set,
 * bootstrapped from the day's log, and the per-face step that turns one
 * classifier output into at most one log row, one snapshot and spoken
 * feedback. Files, the clock, the classifier and the speech engine are
 * inputs and outputs of the model: the log file is its rows, a snapshot is
 * the path written, speech is the text spoken.
 */
module Attendance {
  import opened Wrappers
  import opened Labels

  /** One row of the day's CSV log, as the csv module reads and writes it. */
  type Row = seq<string>

  /** The column names written as the log's header row. */
  const Header: Row := ["ROLL_NUMBER", "NAME", "DEPARTMENT", "SEMESTER", "TIME", "SNAPSHOT_PATH"]

  /** Seconds that must pass between two "already recorded" reminders for one roll. */
  const SpeakDelay: real := 5.0

  const AlreadyRecorded: string := "Attendance already recorded for today."

  /** The last logged name shown before anyone has been logged in this session. */
  const NoneLogged: string := "N/A"

  /** The classifier's sentinels that are never treated as a label. */
  const Unknown: string := "Unknown"
  const ErrorOutput: string := "Error"

  /** Where the day's snapshots go, and the separator the Windows path join inserts. */
  const SnapshotRoot: string := "./Attendance/Snapshots/"
  const PathSeparator: char := '\\'

  function RecordedFor(name: string): string
  {
    "Attendance recorded for " + name + "."
  }

  // ---------------------------------------------------------------------
  // Bootstrap of the dedupe set from the day's log
  // ---------------------------------------------------------------------

  /** The first column of every non-empty row. */
  function FirstColumn(rows: seq<Row>): set<string>
  {
    if rows == [] then {}
    else
      var last := rows[|rows| - 1];
      FirstColumn(rows[..|rows| - 1]) + (if |last| > 0 then {last[0]} else {})
  }

  lemma {:induction false} FirstColumnMembers(rows: seq<Row>, r: string)
    ensures r in FirstColumn(rows) <==> exists i :: 0 <= i < |rows| && |rows[i]| > 0 && rows[i][0] == r
  {
    if rows != [] {
      var init := rows[..|rows| - 1];
      FirstColumnMembers(init, r);
      if exists i :: 0 <= i < |rows| && |rows[i]| > 0 && rows[i][0] == r {
        var i :| 0 <= i < |rows| && |rows[i]| > 0 && rows[i][0] == r;
        if i < |rows| - 1 {
          assert init[i] == rows[i];
        }
      }
      if exists i :: 0 <= i < |init| && |init[i]| > 0 && init[i][0] == r {
        var i :| 0 <= i < |init| && |init[i]| > 0 && init[i][0] == r;
        assert rows[i] == init[i];
      }
    }
  }

  /**
   * The dedupe set a session starts with: nothing for an absent or empty file,
   * otherwise the first column of every non-empty row after the header row.
   */
  function Bootstrapped(file: Option<seq<Row>>): set<string>
  {
    if file.None? || file.value == [] then {} else FirstColumn(file.value[1..])
  }

  lemma BootstrappedMembers(file: Option<seq<Row>>, r: string)
    ensures r in Bootstrapped(file) <==>
      file.Some? && exists i :: 1 <= i < |file.value| && |file.value[i]| > 0 && file.value[i][0] == r
  {
    if file.Some? && file.value != [] {
      var rows := file.value;
      var tail := rows[1..];
      FirstColumnMembers(tail, r);
      if r in Bootstrapped(file) {
        var i :| 0 <= i < |tail| && |tail[i]| > 0 && tail[i][0] == r;
        assert rows[i + 1] == tail[i];
      }
      if exists i :: 1 <= i < |rows| && |rows[i]| > 0 && rows[i][0] == r {
        var i :| 1 <= i < |rows| && |rows[i]| > 0 && rows[i][0] == r;
        assert tail[i - 1] == rows[i];
      }
    }
  }

  /**
   * Reads the day's log row by row into the dedupe set (test.py:68-77): the
   * header row is skipped and blank rows add nothing.
   */
  method LoadPresent(file: Option<seq<Row>>) returns (present: set<string>)
    ensures present == Bootstrapped(file)
    ensures forall r :: r in present <==>
      file.Some? && exists i :: 1 <= i < |file.value| && |file.value[i]| > 0 && file.value[i][0] == r
  {
    present := {};
    if file.Some? && |file.value| > 0 {
      var rows := file.value;
      var k := 1;
      while k < |rows|
        invariant 1 <= k <= |rows|
        invariant present == FirstColumn(rows[1..k])
      {
        assert rows[1..k + 1][..k - 1] == rows[1..k];
        if |rows[k]| > 0 {
          present := present + {rows[k][0]};
        }
        k := k + 1;
      }
      assert rows[1..k] == rows[1..];
    }
    forall r
      ensures r in present <==>
        file.Some? && exists i :: 1 <= i < |file.value| && |file.value[i]| > 0 && file.value[i][0] == r
    {
      BootstrappedMembers(file, r);
    }
  }

  // ---------------------------------------------------------------------
  // Snapshot names
  // ---------------------------------------------------------------------

  function DigitChar(d: nat): char
    requires d < 10
  {
    ('0' as int + d) as char
  }

  /** The number a string of decimal digits denotes, read from the left. */
  function DigitsValue(s: string): nat
    requires forall i :: 0 <= i < |s| ==> '0' <= s[i] <= '9'
  {
    if s == [] then 0 else 10 * DigitsValue(s[..|s| - 1]) + (s[|s| - 1] as int - '0' as int)
  }

  /** `str(n)` for a non-negative integer: the digits of n, with no leading zero. */
  function DecimalString(n: nat): (s: string)
    ensures |s| >= 1
    ensures forall i :: 0 <= i < |s| ==> '0' <= s[i] <= '9'
    ensures DigitsValue(s) == n
    ensures s[0] == '0' ==> n == 0
  {
    if n < 10 then [DigitChar(n)]
    else
      var high := DecimalString(n / 10);
      var s := high + [DigitChar(n % 10)];
      assert s[..|high|] == high;
      s
  }

  /** The day's snapshot directory (test.py:81). */
  function SnapshotDir(date: string): string
  {
    SnapshotRoot + date
  }

  /** The snapshot's file name: roll, date and epoch second, joined by the delimiter. */
  function SnapshotName(roll: string, date: string, epoch: nat): string
  {
    roll + [Delimiter] + date + [Delimiter] + DecimalString(epoch) + ".jpg"
  }

  /** Whether a Windows path join takes the name as it is: it starts with a separator or a drive. */
  predicate Rooted(name: string)
  {
    (|name| > 0 && (name[0] == '\\' || name[0] == '/')) || (|name| >= 2 && name[1] == ':')
  }

  /** Whether `path` lies under the directory `dir`. */
  predicate Under(path: string, dir: string)
  {
    |dir| < |path| && path[..|dir|] == dir
  }

  /**
   * `os.path.join(snapshot_dir, name)` on Windows: the name alone when it is
   * rooted, otherwise the directory, a separator unless it already ends in
   * one, and the name.
   */
  function SnapshotPath(date: string, roll: string, epoch: nat): string
  {
    var dir := SnapshotDir(date);
    var name := SnapshotName(roll, date, epoch);
    if Rooted(name) then name
    else if dir[|dir| - 1] == '\\' || dir[|dir| - 1] == '/' then dir + name
    else dir + [PathSeparator] + name
  }

  /**
   * Where a snapshot goes: its file name always ends the path, and the path
   * lies in the day's directory exactly when the name is not rooted.
   */
  lemma SnapshotPlacement(date: string, roll: string, epoch: nat)
    ensures var name, path := SnapshotName(roll, date, epoch), SnapshotPath(date, roll, epoch);
      |name| <= |path| && path[|path| - |name|..] == name
    ensures Rooted(SnapshotName(roll, date, epoch)) <==> !Under(SnapshotPath(date, roll, epoch), SnapshotDir(date))
  {
  }

  /**
   * A roll without the delimiter is recoverable from its snapshot path, so
   * two rolls never share one, whatever the epochs and wherever the join puts
   * the files.
   */
  lemma SnapshotPathsDistinct(date: string, roll1: string, epoch1: nat, roll2: string, epoch2: nat)
    requires Delimiter !in roll1 && Delimiter !in roll2
    requires roll1 != roll2
    ensures SnapshotPath(date, roll1, epoch1) != SnapshotPath(date, roll2, epoch2)
  {
    var name1, name2 := SnapshotName(roll1, date, epoch1), SnapshotName(roll2, date, epoch2);
    var rest1 := [Delimiter] + date + [Delimiter] + DecimalString(epoch1) + ".jpg";
    var rest2 := [Delimiter] + date + [Delimiter] + DecimalString(epoch2) + ".jpg";
    assert name1 == roll1 + rest1 && name2 == roll2 + rest2;
    if name1 == name2 {
      FirstFieldUnique(roll1, rest1, roll2, rest2);
    }
    SnapshotPlacement(date, roll1, epoch1);
    SnapshotPlacement(date, roll2, epoch2);
    if !Rooted(name1) && !Rooted(name2) {
      var dir := SnapshotDir(date);
      var prefix := if dir[|dir| - 1] == '\\' || dir[|dir| - 1] == '/' then dir else dir + [PathSeparator];
      var path1, path2 := prefix + name1, prefix + name2;
      assert path1[|prefix|..] == name1 && path2[|prefix|..] == name2;
    }
  }

  /** Position of the first occurrence of `c` in `s`. */
  function FirstIndex(s: string, c: char): (k: nat)
    requires c in s
    ensures k < |s| && s[k] == c && c !in s[..k]
  {
    if s[0] == c then 0 else 1 + FirstIndex(s[1..], c)
  }

  lemma {:induction false} FirstIndexAfterField(a: string, u: string)
    requires Delimiter !in a && |u| > 0 && u[0] == Delimiter
    ensures Delimiter in a + u && FirstIndex(a + u, Delimiter) == |a|
  {
    assert (a + u)[|a|] == Delimiter;
    if a != [] {
      assert (a + u)[1..] == a[1..] + u;
      FirstIndexAfterField(a[1..], u);
    }
  }

  /** The text before the first delimiter determines the field. */
  lemma FirstFieldUnique(a: string, u: string, b: string, v: string)
    requires Delimiter !in a && Delimiter !in b
    requires |u| > 0 && u[0] == Delimiter && |v| > 0 && v[0] == Delimiter
    requires a + u == b + v
    ensures a == b
  {
    FirstIndexAfterField(a, u);
    FirstIndexAfterField(b, v);
    assert a == (a + u)[..|a|];
    assert b == (b + v)[..|b|];
  }

  // ---------------------------------------------------------------------
  // The per-face step
  // ---------------------------------------------------------------------

  /** What the classifier call gave: a predicted label, or a ValueError. */
  datatype Prediction = Predicted(output: string) | PredictFailed

  /**
   * What goes wrong in the logging branch: the image write silently writes
   * nothing (it reports failure by its return value, which is ignored), the
   * image write raises, or the log append raises.
   */
  datatype Fault = NoFault | ImageNotWritten | SnapshotFails | AppendFails

  /** Whether the snapshot file is written. */
  predicate Writes(f: Fault)
  {
    f == NoFault || f == AppendFails
  }

  /** Whether an exception leaves the logging branch before the row is written. */
  predicate Raises(f: Fault)
  {
    f == SnapshotFails || f == AppendFails
  }

  /**
   * One detected face: the classifier's result, the clock reading used for
   * the reminder debounce, the formatted time of day, the epoch second used in
   * the snapshot name, and whether the logging I/O raises.
   */
  datatype Detection = Detection(prediction: Prediction, now: real, clock: string, epoch: nat, fault: Fault)

  /** The session's day: its date string and whether the log existed when the session started. */
  datatype Day = Day(date: string, existedAtStart: bool)

  /**
   * The session state: the dedupe set, the reminder timestamps, the day's log
   * rows, the snapshot paths written, the texts spoken, and the last name logged.
   */
  datatype State = State(
    present: set<string>,
    lastSpeak: map<string, real>,
    log: seq<Row>,
    snapshots: seq<string>,
    spoken: seq<string>,
    lastLogged: string)

  /** The output a prediction is handled as: a ValueError becomes "Error" (test.py:122-125). */
  function OutputOf(p: Prediction): string
  {
    match p
    case Predicted(output) => output
    case PredictFailed => ErrorOutput
  }

  /**
   * The identity a detection is resolved to, or None when it is skipped: the
   * output is a sentinel or its label does not split into two or more parts.
   * Neither sentinel holds the delimiter, so the guard agrees with the parser.
   */
  function Resolve(d: Detection): (id: Option<Identity>)
    ensures OutputOf(d.prediction) == Unknown || OutputOf(d.prediction) == ErrorOutput ==> id.None?
    ensures d.prediction.PredictFailed? ==> id.None?
    ensures id == ParseLabel(OutputOf(d.prediction))
  {
    var output := OutputOf(d.prediction);
    assert Delimiter !in Unknown && Delimiter !in ErrorOutput;
    if output == Unknown || output == ErrorOutput then None else ParseLabel(output)
  }

  /** The time of the last reminder for a roll, 0 when there was none. */
  function LastSpoke(s: State, roll: string): real
  {
    if roll in s.lastSpeak then s.lastSpeak[roll] else 0.0
  }

  /** A log row: the header's six columns, in its order. */
  function NewRow(id: Identity, clock: string, path: string): Row
  {
    [id.roll, id.name, id.department, id.semester, clock, path]
  }

  /**
   * Whether a new entry is preceded by the header row (test.py:170): always
   * when the log was absent at session start, otherwise when it holds no rows.
   */
  predicate NeedsHeader(day: Day, s: State)
  {
    !day.existedAtStart || s.log == []
  }

  /**
   * One detection handled by the session (test.py:138-180).
   */
  function Next(day: Day, s: State, d: Detection): (t: State)
    // skipped detections change nothing
    ensures Resolve(d).None? ==> t == s
    // already present: no row, no snapshot; a reminder, and a new timestamp, only after the delay
    ensures Resolve(d).Some? && Resolve(d).value.roll in s.present ==>
      var roll := Resolve(d).value.roll;
      && t.present == s.present && t.log == s.log && t.snapshots == s.snapshots
      && t.lastLogged == s.lastLogged
      && (d.now - LastSpoke(s, roll) > SpeakDelay ==>
            t.spoken == s.spoken + [AlreadyRecorded] && t.lastSpeak == s.lastSpeak[roll := d.now])
      && (d.now - LastSpoke(s, roll) <= SpeakDelay ==>
            t.spoken == s.spoken && t.lastSpeak == s.lastSpeak)
    // new roll: a snapshot when its write succeeds; the row, the set and the announcement
    // unless something raises
    ensures Resolve(d).Some? && Resolve(d).value.roll !in s.present ==>
      var id := Resolve(d).value;
      var path := SnapshotPath(day.date, id.roll, d.epoch);
      && t.lastSpeak == s.lastSpeak
      && t.snapshots == (if Writes(d.fault) then s.snapshots + [path] else s.snapshots)
      && (Raises(d.fault) ==>
            t.present == s.present && t.log == s.log && t.spoken == s.spoken && t.lastLogged == s.lastLogged)
      && (!Raises(d.fault) ==>
            && t.present == s.present + {id.roll}
            && t.log == s.log + (if NeedsHeader(day, s) then [Header] else []) + [NewRow(id, d.clock, path)]
            && t.spoken == s.spoken + [RecordedFor(id.name)]
            && t.lastLogged == id.name)
  {
    match Resolve(d)
    case None => s
    case Some(id) =>
      if id.roll in s.present then
        if d.now - LastSpoke(s, id.roll) > SpeakDelay then
          s.(spoken := s.spoken + [AlreadyRecorded], lastSpeak := s.lastSpeak[id.roll := d.now])
        else s
      else Enter(day, s, id, d)
  }

  /** The new-entry branch of a step (test.py:158-176), for a roll not yet present. */
  function Enter(day: Day, s: State, id: Identity, d: Detection): State
  {
    if d.fault == SnapshotFails then s
    else
      var path := SnapshotPath(day.date, id.roll, d.epoch);
      var snapshots := if d.fault == ImageNotWritten then s.snapshots else s.snapshots + [path];
      if d.fault == AppendFails then s.(snapshots := snapshots)
      else
        var header := if NeedsHeader(day, s) then [Header] else [];
        s.(snapshots := snapshots,
           log := s.log + header + [NewRow(id, d.clock, path)],
           present := s.present + {id.roll},
           lastLogged := id.name,
           spoken := s.spoken + [RecordedFor(id.name)])
  }

  /**
   * The detections handled one after the other, in order. The set only grows,
   * and the log, the snapshots and the speech are only appended to.
   */
  function Run(day: Day, s: State, ds: seq<Detection>): (t: State)
    ensures s.present <= t.present
    ensures s.log <= t.log && s.snapshots <= t.snapshots && s.spoken <= t.spoken
    decreases |ds|
  {
    if ds == [] then s else Next(day, Run(day, s, ds[..|ds| - 1]), ds[|ds| - 1])
  }

  /** The session in place: test.py's module-level state, updated by each detected face. */
  class Session {
    const day: Day
    var present: set<string>
    var lastSpeak: map<string, real>
    var log: seq<Row>
    var snapshots: seq<string>
    var spoken: seq<string>
    var lastLogged: string

    function Current(): State
      reads this
    {
      State(present, lastSpeak, log, snapshots, spoken, lastLogged)
    }

    /**
     * Session start (test.py:62-87): `file` is the day's log, None when it is
     * absent; the dedupe set is read from it and the reminder map is empty.
     */
    constructor (date: string, file: Option<seq<Row>>)
      ensures day == Day(date, file.Some?)
      ensures Current() == State(Bootstrapped(file), map[], if file.Some? then file.value else [], [], [], NoneLogged)
    {
      var loaded := LoadPresent(file);
      day := Day(date, file.Some?);
      present := loaded;
      lastSpeak := map[];
      log := if file.Some? then file.value else [];
      snapshots := [];
      spoken := [];
      lastLogged := NoneLogged;
    }

    /** One detected face (test.py:122-180). */
    method Step(d: Detection)
      modifies this
      ensures Current() == Next(day, old(Current()), d)
    {
      var output := if d.prediction.PredictFailed? then ErrorOutput else d.prediction.output;
      if output != Unknown && output != ErrorOutput {
        var parsed := ParseLabel(output);
        if parsed.Some? {
          var id := parsed.value;
          if id.roll in present {
            var last := if id.roll in lastSpeak then lastSpeak[id.roll] else 0.0;
            if d.now - last > SpeakDelay {
              spoken := spoken + [AlreadyRecorded];
              lastSpeak := lastSpeak[id.roll := d.now];
            }
          } else {
            LogEntry(d, id);
          }
        }
      }
    }

    /** The new-entry branch (test.py:158-176): snapshot, row, set entry, announcement. */
    method LogEntry(d: Detection, id: Identity)
      modifies this
      ensures Current() == Enter(day, old(Current()), id, d)
    {
      var header := NeedsHeader(day, Current());
      if d.fault != SnapshotFails {
        var path := SnapshotPath(day.date, id.roll, d.epoch);
        if d.fault != ImageNotWritten {
          snapshots := snapshots + [path];
        }
        if d.fault != AppendFails {
          if header {
            log := log + [Header];
          }
          log := log + [NewRow(id, d.clock, path)];
          present := present + {id.roll};
          lastLogged := id.name;
          spoken := spoken + [RecordedFor(id.name)];
        }
      }
    }

    /** Every face detected in one frame, in detector order (test.py:118). */
    method ProcessFrame(ds: seq<Detection>)
      modifies this
      ensures Current() == Run(day, old(Current()), ds)
    {
      for i := 0 to |ds|
        invariant Current() == Run(day, old(Current()), ds[..i])
      {
        assert ds[..i + 1][..i] == ds[..i];
        Step(ds[i]);
      }
      assert ds[..|ds|] == ds;
    }
  }
}

=== FILE: attendance_properties.dfy ===
/**
 * What a whole session of the recognizer guarantees: each roll is logged at
 * most once, reminders are debounced, the dedupe set always equals what a
 * restart would read back from the log when the log existed at start, and
 * how many header rows the log gets.
 */
module AttendanceProperties {
  import opened Wrappers
  import opened Labels
  import opened Attendance

  /** Number of rows whose first column is `r`. */
  function CountRoll(rows: seq<Row>, r: string): nat
  {
    if rows == [] then 0
    else
      var last := rows[|rows| - 1];
      CountRoll(rows[..|rows| - 1], r) + (if |last| > 0 && last[0] == r then 1 else 0)
  }

  /** Number of rows equal to `row`. */
  function Occurrences(rows: seq<Row>, row: Row): nat
  {
    if rows == [] then 0
    else Occurrences(rows[..|rows| - 1], row) + (if rows[|rows| - 1] == row then 1 else 0)
  }

  lemma {:induction false} CountRollAppend(a: seq<Row>, b: seq<Row>, r: string)
    ensures CountRoll(a + b, r) == CountRoll(a, r) + CountRoll(b, r)
    decreases |b|
  {
    if b == [] {
      assert a + b == a;
    } else {
      assert (a + b)[..|a + b| - 1] == a + b[..|b| - 1];
      CountRollAppend(a, b[..|b| - 1], r);
    }
  }

  lemma {:induction false} OccurrencesAppend(a: seq<Row>, b: seq<Row>, row: Row)
    ensures Occurrences(a + b, row) == Occurrences(a, row) + Occurrences(b, row)
    decreases |b|
  {
    if b == [] {
      assert a + b == a;
    } else {
      assert (a + b)[..|a + b| - 1] == a + b[..|b| - 1];
      OccurrencesAppend(a, b[..|b| - 1], row);
    }
  }

  /** A logged row is never mistaken for the header: its last column is a path under the snapshot root. */
  lemma NewRowIsNotHeader(id: Identity, clock: string, date: string, epoch: nat)
    ensures NewRow(id, clock, SnapshotPath(date, id.roll, epoch)) != Header
  {
  }

  /** A detection resolved to roll `r`. */
  predicate ResolvesTo(d: Detection, r: string)
  {
    Resolve(d).Some? && Resolve(d).value.roll == r
  }

  // ---------------------------------------------------------------------
  // One row per roll per session
  // ---------------------------------------------------------------------

  /**
   * One step adds a row for `r` exactly when it adds `r` to the dedupe set,
   * and the set never loses a roll. `r` is not "ROLL_NUMBER": header rows
   * carry that text in their first column.
   */
  lemma NextLogsRollOnce(day: Day, s: State, d: Detection, r: string)
    requires r != Header[0]
    ensures s.present <= Next(day, s, d).present
    ensures var t := Next(day, s, d);
      CountRoll(t.log, r) == CountRoll(s.log, r) + (if r in t.present && r !in s.present then 1 else 0)
  {
    var t := Next(day, s, d);
    if Resolve(d).Some? && Resolve(d).value.roll !in s.present && !Raises(d.fault) {
      var id := Resolve(d).value;
      var header: seq<Row> := if NeedsHeader(day, s) then [Header] else [];
      var row := NewRow(id, d.clock, SnapshotPath(day.date, id.roll, d.epoch));
      assert t.log == s.log + header + [row];
      CountRollEntry(s.log, header, row, r);
    }
  }

  /** Appending a row, after the header row or not, counts once for the row's roll. */
  lemma CountRollEntry(log: seq<Row>, header: seq<Row>, row: Row, r: string)
    requires header == [] || header == [Header]
    requires r != Header[0] && |row| > 0
    ensures CountRoll(log + header + [row], r) == CountRoll(log, r) + (if row[0] == r then 1 else 0)
  {
    CountRollAppend(log + header, [row], r);
    CountRollAppend(log, header, r);
    assert [row][..0] == [];
    assert header != [] ==> header[..0] == [];
  }

  /**
   * Over any sequence of detections, the log gains a row for `r` exactly when
   * `r` joined the dedupe set during the run, and never more than one: a roll
   * already present at the start is never logged again. `r` is not
   * "ROLL_NUMBER", which header rows carry in their first column.
   */
  lemma {:induction false} RunLogsRollOnce(day: Day, s: State, ds: seq<Detection>, r: string)
    requires r != Header[0]
    ensures s.present <= Run(day, s, ds).present
    ensures var t := Run(day, s, ds);
      CountRoll(t.log, r) == CountRoll(s.log, r) + (if r in t.present && r !in s.present then 1 else 0)
    decreases |ds|
  {
    if ds != [] {
      var p := Run(day, s, ds[..|ds| - 1]);
      RunLogsRollOnce(day, s, ds[..|ds| - 1], r);
      NextLogsRollOnce(day, p, ds[|ds| - 1], r);
    }
  }

  // ---------------------------------------------------------------------
  // Debounced reminders
  // ---------------------------------------------------------------------

  /** Whether detection `d`, handled in state `p`, speaks an "already recorded" reminder for `r`. */
  predicate RemindsOf(p: State, d: Detection, r: string)
  {
    ResolvesTo(d, r) && r in p.present && d.now - LastSpoke(p, r) > SpeakDelay
  }

  /**
   * A reminder for `r` is spoken, and its time kept, exactly on the steps
   * `RemindsOf` picks; a detection of any other roll leaves the reminder time
   * of `r` alone and keeps `r` present.
   */
  lemma RemindsOfSpeaks(day: Day, p: State, d: Detection, r: string)
    ensures var t := Next(day, p, d);
      RemindsOf(p, d, r) ==> t.spoken == p.spoken + [AlreadyRecorded] && LastSpoke(t, r) == d.now
    ensures var t := Next(day, p, d);
      ResolvesTo(d, r) && r in p.present && !RemindsOf(p, d, r) ==>
        t.spoken == p.spoken && LastSpoke(t, r) == LastSpoke(p, r)
    ensures var t := Next(day, p, d);
      !ResolvesTo(d, r) ==> LastSpoke(t, r) == LastSpoke(p, r) && (r in p.present ==> r in t.present)
  {
  }

  /** The number of reminders for `r` spoken over a run. */
  function RemindersFor(day: Day, s: State, ds: seq<Detection>, r: string): nat
    decreases |ds|
  {
    if ds == [] then 0
    else
      var init := ds[..|ds| - 1];
      RemindersFor(day, s, init, r) + (if RemindsOf(Run(day, s, init), ds[|ds| - 1], r) then 1 else 0)
  }

  /**
   * However the detections of other people interleave, the detections of a
   * present roll `r` within one 5-second window speak at most one reminder
   * for it; without one its reminder time is unchanged, with one it lies in
   * the window.
   */
  lemma {:induction false} DebounceWindow(day: Day, s: State, ds: seq<Detection>, r: string, t0: real)
    requires r in s.present
    requires forall i :: 0 <= i < |ds| && ResolvesTo(ds[i], r) ==> t0 <= ds[i].now <= t0 + SpeakDelay
    ensures RemindersFor(day, s, ds, r) <= 1
    ensures r in Run(day, s, ds).present
    ensures RemindersFor(day, s, ds, r) == 0 ==> LastSpoke(Run(day, s, ds), r) == LastSpoke(s, r)
    ensures RemindersFor(day, s, ds, r) == 1 ==> t0 <= LastSpoke(Run(day, s, ds), r) <= t0 + SpeakDelay
    decreases |ds|
  {
    if ds != [] {
      var init := ds[..|ds| - 1];
      assert forall i :: 0 <= i < |init| ==> init[i] == ds[i];
      DebounceWindow(day, s, init, r, t0);
      var p := Run(day, s, init);
      var d := ds[|ds| - 1];
      RemindsOfSpeaks(day, p, d, r);
      assert ResolvesTo(d, r) ==> t0 <= d.now <= t0 + SpeakDelay;
    }
  }

  /**
   * When only `r` is in front of the camera, the detections within one
   * 5-second window speak at most one reminder, and change nothing but the
   * reminder state.
   */
  lemma {:induction false} DebounceWindowAlone(day: Day, s: State, ds: seq<Detection>, r: string, t0: real)
    requires r in s.present
    requires forall i :: 0 <= i < |ds| ==> ResolvesTo(ds[i], r) && t0 <= ds[i].now <= t0 + SpeakDelay
    ensures var t := Run(day, s, ds);
      t.present == s.present && t.log == s.log && t.snapshots == s.snapshots
    ensures var t := Run(day, s, ds);
      t.spoken == s.spoken || t.spoken == s.spoken + [AlreadyRecorded]
    ensures var t := Run(day, s, ds);
      t.spoken == s.spoken + [AlreadyRecorded] ==> r in t.lastSpeak && t0 <= t.lastSpeak[r]
    ensures var t := Run(day, s, ds);
      t.spoken == s.spoken ==> t.lastSpeak == s.lastSpeak
    decreases |ds|
  {
    if ds != [] {
      var init := ds[..|ds| - 1];
      assert forall i :: 0 <= i < |init| ==> init[i] == ds[i];
      DebounceWindowAlone(day, s, init, r, t0);
      var p := Run(day, s, init);
      var d := ds[|ds| - 1];
      assert ResolvesTo(d, r) && t0 <= d.now <= t0 + SpeakDelay;
      if p.spoken == s.spoken + [AlreadyRecorded] {
        assert d.now - LastSpoke(p, r) <= SpeakDelay;
      }
    }
  }

  /**
   * Two already-present detections of one roll more than 5 seconds apart both
   * speak a reminder when the first one does.
   */
  lemma RemindersResumeAfterDelay(day: Day, s: State, d1: Detection, d2: Detection, r: string)
    requires r in s.present && ResolvesTo(d1, r) && ResolvesTo(d2, r)
    requires d1.now - LastSpoke(s, r) > SpeakDelay
    requires d2.now - d1.now > SpeakDelay
    ensures Run(day, s, [d1, d2]).spoken == s.spoken + [AlreadyRecorded, AlreadyRecorded]
  {
    TwoSteps(day, s, d1, d2);
    var s1 := Next(day, s, d1);
    assert s1.spoken == s.spoken + [AlreadyRecorded] && LastSpoke(s1, r) == d1.now;
  }

  /**
   * Logging a new entry does not start the reminder timer: the next
   * detection of the same roll, at any clock reading past 5 seconds, speaks a
   * reminder straight after the announcement.
   */
  lemma ReminderRightAfterLogging(day: Day, s: State, d1: Detection, d2: Detection, r: string)
    requires r !in s.present && r !in s.lastSpeak
    requires ResolvesTo(d1, r) && !Raises(d1.fault)
    requires ResolvesTo(d2, r) && d2.now > SpeakDelay
    ensures Run(day, s, [d1, d2]).spoken
            == s.spoken + [RecordedFor(Resolve(d1).value.name), AlreadyRecorded]
  {
    TwoSteps(day, s, d1, d2);
    var s1 := Next(day, s, d1);
    assert r in s1.present && s1.lastSpeak == s.lastSpeak;
    assert s1.spoken == s.spoken + [RecordedFor(Resolve(d1).value.name)];
  }

  /** A run of two detections is the two steps in order. */
  lemma TwoSteps(day: Day, s: State, d1: Detection, d2: Detection)
    ensures Run(day, s, [d1, d2]) == Next(day, Next(day, s, d1), d2)
  {
    assert Run(day, s, [d1]) == Next(day, s, d1) by {
      assert [d1][..0] == [];
    }
    assert [d1, d2][..1] == [d1];
  }

  // ---------------------------------------------------------------------
  // The dedupe set and the durable log
  // ---------------------------------------------------------------------

  lemma NextKeepsDedupeDerived(day: Day, s: State, d: Detection)
    requires day.existedAtStart
    requires s.present == Bootstrapped(Some(s.log))
    ensures var t := Next(day, s, d); t.present == Bootstrapped(Some(t.log))
  {
    var t := Next(day, s, d);
    if Resolve(d).Some? && Resolve(d).value.roll !in s.present && !Raises(d.fault) {
      var id := Resolve(d).value;
      var row := NewRow(id, d.clock, SnapshotPath(day.date, id.roll, d.epoch));
      if s.log == [] {
        assert t.log == [Header, row];
        assert t.log[1..] == [row];
        assert [row][..0] == [];
        assert FirstColumn([row]) == {id.roll};
      } else {
        assert t.log == s.log + [row];
        assert t.log[1..] == s.log[1..] + [row];
        assert (s.log[1..] + [row])[..|s.log| - 1] == s.log[1..];
      }
    }
  }

  /**
   * When the day's log existed at session start, the dedupe set stays equal
   * to what a restart would bootstrap from the log at every point of the
   * session, so a restart re-admits nobody.
   */
  lemma {:induction false} DedupeSetMatchesLog(day: Day, s: State, ds: seq<Detection>)
    requires day.existedAtStart
    requires s.present == Bootstrapped(Some(s.log))
    ensures var t := Run(day, s, ds); t.present == Bootstrapped(Some(t.log))
    decreases |ds|
  {
    if ds != [] {
      DedupeSetMatchesLog(day, s, ds[..|ds| - 1]);
      NextKeepsDedupeDerived(day, Run(day, s, ds[..|ds| - 1]), ds[|ds| - 1]);
    }
  }

  /**
   * When the log was absent at session start, one step keeps the set within
   * what a restart would bootstrap: every roll in the set was logged, and
   * the log names nothing else but "ROLL_NUMBER".
   */
  lemma NextKeepsFreshDedupeBounded(day: Day, s: State, d: Detection)
    requires !day.existedAtStart
    requires s.present <= Bootstrapped(Some(s.log)) <= s.present + {Header[0]}
    ensures var t := Next(day, s, d);
      t.present <= Bootstrapped(Some(t.log)) <= t.present + {Header[0]}
  {
    var t := Next(day, s, d);
    if Resolve(d).Some? && Resolve(d).value.roll !in s.present && !Raises(d.fault) {
      var id := Resolve(d).value;
      var row := NewRow(id, d.clock, SnapshotPath(day.date, id.roll, d.epoch));
      assert t.log == s.log + [Header, row];
      if s.log == [] {
        assert t.log[1..] == [row];
        assert [row][..0] == [];
        assert FirstColumn([row]) == {id.roll};
      } else {
        var tail := s.log[1..] + [Header];
        assert t.log[1..] == tail + [row];
        assert (tail + [row])[..|tail|] == tail;
        assert tail[..|s.log| - 1] == s.log[1..];
        assert FirstColumn(t.log[1..]) == Bootstrapped(Some(s.log)) + {Header[0]} + {id.roll};
      }
    }
  }

  /**
   * When the log was absent at session start (the day's first session), a
   * restart at any point still finds every roll of the set in the log, so it
   * re-admits nobody; the log names no other roll but "ROLL_NUMBER".
   */
  lemma {:induction false} FreshDedupeSetMatchesLog(day: Day, s: State, ds: seq<Detection>)
    requires !day.existedAtStart && s.log == [] && s.present == {}
    ensures var t := Run(day, s, ds);
      t.present <= Bootstrapped(Some(t.log)) <= t.present + {Header[0]}
    decreases |ds|
  {
    if ds != [] {
      FreshDedupeSetMatchesLog(day, s, ds[..|ds| - 1]);
      NextKeepsFreshDedupeBounded(day, Run(day, s, ds[..|ds| - 1]), ds[|ds| - 1]);
    }
  }

  /**
   * When the log was absent at session start, the second new entry writes a
   * second header row, and a restart then reads "ROLL_NUMBER" as a roll.
   */
  lemma FreshLogRestartReadsHeaderAsRoll(day: Day, s: State, d1: Detection, d2: Detection, r1: string, r2: string)
    requires !day.existedAtStart && s.log == []
    requires r1 != r2 && r1 !in s.present && r2 !in s.present
    requires ResolvesTo(d1, r1) && !Raises(d1.fault)
    requires ResolvesTo(d2, r2) && !Raises(d2.fault)
    ensures Header[0] in Bootstrapped(Some(Run(day, s, [d1, d2]).log))
  {
    TwoSteps(day, s, d1, d2);
    var s1 := Next(day, s, d1);
    NewEntryRows(day, s, d1, r1);
    NewEntryRows(day, s1, d2, r2);
    var log := Next(day, s1, d2).log;
    assert |log| == 4 && log[2] == Header && |log[2]| > 0;
    BootstrappedMembers(Some(log), Header[0]);
  }

  /** The rows and the set after a new entry that raised nothing. */
  lemma NewEntryRows(day: Day, s: State, d: Detection, r: string)
    requires ResolvesTo(d, r) && r !in s.present && !Raises(d.fault)
    ensures var t := Next(day, s, d);
      && t.present == s.present + {r}
      && |t.log| == |s.log| + (if NeedsHeader(day, s) then 2 else 1)
      && t.log[..|s.log|] == s.log
      && (NeedsHeader(day, s) ==> t.log[|s.log|] == Header)
  {
  }

  // ---------------------------------------------------------------------
  // Header rows
  // ---------------------------------------------------------------------

  lemma NextHeaders(day: Day, s: State, d: Detection)
    ensures var t := Next(day, s, d);
      && s.present <= t.present
      && |t.present - s.present| <= 1
      && |s.log| <= |t.log|
      && (t.present == s.present ==> t.log == s.log)
      && (t.present != s.present ==>
            Occurrences(t.log, Header) == Occurrences(s.log, Header) + (if NeedsHeader(day, s) then 1 else 0))
  {
    var t := Next(day, s, d);
    if Resolve(d).Some? && Resolve(d).value.roll !in s.present && !Raises(d.fault) {
      var id := Resolve(d).value;
      var header: seq<Row> := if NeedsHeader(day, s) then [Header] else [];
      var row := NewRow(id, d.clock, SnapshotPath(day.date, id.roll, d.epoch));
      NewRowIsNotHeader(id, d.clock, day.date, d.epoch);
      assert t.log == (s.log + header) + [row];
      OccurrencesAppend(s.log + header, [row], Header);
      OccurrencesAppend(s.log, header, Header);
      assert [row][..0] == [];
      assert header != [] ==> header[..0] == [];
      assert t.present - s.present == {id.roll};
    } else {
      assert t.present == s.present;
    }
  }

  /**
   * The header condition over a session: with the log absent at start every
   * new entry is preceded by a header row; with the log present at start a
   * header is written only for the first entry into an empty file.
   */
  lemma {:induction false} HeaderRows(day: Day, s: State, ds: seq<Detection>)
    ensures var t := Run(day, s, ds);
      !day.existedAtStart ==>
        Occurrences(t.log, Header) == Occurrences(s.log, Header) + |t.present - s.present|
    ensures var t := Run(day, s, ds);
      day.existedAtStart ==>
        Occurrences(t.log, Header)
        == Occurrences(s.log, Header) + (if s.log == [] && t.present != s.present then 1 else 0)
    ensures var t := Run(day, s, ds);
      s.present <= t.present && |s.log| <= |t.log| && (t.present == s.present ==> t.log == s.log)
    decreases |ds|
  {
    if ds != [] {
      var p := Run(day, s, ds[..|ds| - 1]);
      var d := ds[|ds| - 1];
      var t := Run(day, s, ds);
      assert t == Next(day, p, d);
      HeaderRows(day, s, ds[..|ds| - 1]);
      NextHeaders(day, p, d);
      if t.present != p.present {
        var x :| x in t.present - p.present;
        assert t.present == p.present + {x} && x !in p.present;
        NewMemberCardinality(s.present, p.present, x);
        if day.existedAtStart {
          assert NeedsHeader(day, p) <==> p.log == [];
          assert p.log == [] <==> (s.log == [] && p.present == s.present);
        }
      }
    }
  }

  lemma NewMemberCardinality(base: set<string>, cur: set<string>, x: string)
    requires base <= cur && x !in cur
    ensures |(cur + {x}) - base| == |cur - base| + 1
  {
  }
}

=== FILE: enrollment.dfy ===
/**
 * Enrollment (add_faces.py): a decimating sampler keeps one face crop in
 * ten until 100 are held, then the crops are reshaped into 100 feature rows
 * and appended, with 100 copies of the identity's label, to the two files of
 * the feature store. The camera and the detector are an input: the frames
 * read, each with the resized crops the detector found in it.
 */
module Enrollment {
  import opened Wrappers
  import opened Labels

  /** Samples an enrollment aims for, and rows every commit reshapes into. */
  const SampleQuota: nat := 100

  /** One crop is kept for every this many detections. */
  const SampleEvery: nat := 10

  /** Length of one flattened 50x50 colour crop. */
  const CropSize: nat := 50 * 50 * 3

  /** The 100 empty feature rows that a batch with no crop reshapes into. */
  const EmptyRows: seq<seq<int>> := seq(SampleQuota, _ => [])

  /** A flattened face crop. */
  type Pixels = seq<int>

  /**
   * One frame read from the camera: the crops the detector found in it,
   * already resized, and whether 'q' was pressed while it was shown. The
   * stream ends where the sequence of frames ends (a failed read).
   */
  datatype Frame = Frame(faces: seq<Pixels>, quit: bool)

  function Min(a: nat, b: nat): nat
  {
    if a <= b then a else b
  }

  // ---------------------------------------------------------------------
  // The decimating sampler
  // ---------------------------------------------------------------------

  /** Every detection of the frames, in order. */
  function Detections(frames: seq<Frame>): seq<Pixels>
  {
    if frames == [] then [] else Detections(frames[..|frames| - 1]) + frames[|frames| - 1].faces
  }

  /**
   * The crops kept from a sequence of detections: detection number i is
   * kept when i is a multiple of ten and fewer than 100 are held.
   */
  function Sampled(d: seq<Pixels>): (samples: seq<Pixels>)
    ensures |samples| <= SampleQuota
  {
    if d == [] then []
    else
      var held := Sampled(d[..|d| - 1]);
      if |held| < SampleQuota && (|d| - 1) % SampleEvery == 0 then held + [d[|d| - 1]] else held
  }

  /** Reading goes on after frame m: no 'q' was pressed and fewer than 100 crops are held. */
  predicate Continues(frames: seq<Frame>, m: nat)
    requires m < |frames|
  {
    !frames[m].quit && |SampledBy(frames, m + 1)| < SampleQuota
  }

  /** The crops held after the first `n` frames. */
  function SampledBy(frames: seq<Frame>, n: nat): seq<Pixels>
    requires n <= |frames|
  {
    Sampled(Detections(frames[..n]))
  }

  /**
   * After d detections the sampler holds min(100, ceil(d / 10)) crops, and
   * crop number j is detection number 10 * j.
   */
  lemma {:induction false} SampledShape(d: seq<Pixels>)
    ensures |Sampled(d)| == Min(SampleQuota, (|d| + SampleEvery - 1) / SampleEvery)
    ensures forall j :: 0 <= j < |Sampled(d)| ==> SampleEvery * j < |d| && Sampled(d)[j] == d[SampleEvery * j]
    decreases |d|
  {
    if d != [] {
      var init := d[..|d| - 1];
      SampledShape(init);
      assert forall j :: 0 <= j < |init| ==> init[j] == d[j];
    }
  }

  /**
   * The faces of one frame (add_faces.py:45-53): each advances the counter,
   * and is kept when the counter is a multiple of ten and fewer than 100
   * crops are held.
   */
  method SampleFrame(ghost before: seq<Pixels>, faces: seq<Pixels>, held: seq<Pixels>, count: nat)
    returns (samples: seq<Pixels>, seen: nat)
    requires held == Sampled(before) && count == |before|
    ensures samples == Sampled(before + faces) && seen == |before| + |faces|
  {
    samples, seen := held, count;
    var j := 0;
    assert before + faces[..0] == before;
    while j < |faces|
      invariant j <= |faces|
      invariant seen == |before| + j
      invariant samples == Sampled(before + faces[..j])
    {
      assert (before + faces[..j + 1])[..|before| + j] == before + faces[..j];
      if |samples| < SampleQuota && seen % SampleEvery == 0 {
        samples := samples + [faces[j]];
      }
      seen := seen + 1;
      j := j + 1;
    }
    assert faces[..|faces|] == faces;
  }

  /**
   * The capture loop (add_faces.py:37-62): every frame's faces go through the
   * sampler, and reading stops after a frame on which 'q' was pressed or 100
   * crops are held, or when the stream ends. Returns the crops, the counter
   * and the number of frames read.
   */
  method CollectSamples(frames: seq<Frame>) returns (samples: seq<Pixels>, seen: nat, read: nat)
    ensures read <= |frames|
    ensures seen == |Detections(frames[..read])|
    ensures samples == SampledBy(frames, read)
    ensures forall m :: 0 <= m < read - 1 ==> Continues(frames, m)
    ensures read == |frames| || (0 < read && (frames[read - 1].quit || |samples| == SampleQuota))
    ensures |samples| == Min(SampleQuota, (seen + SampleEvery - 1) / SampleEvery)
    ensures forall j :: 0 <= j < |samples| ==>
      SampleEvery * j < seen && samples[j] == Detections(frames[..read])[SampleEvery * j]
  {
    samples, seen, read := [], 0, 0;
    while read < |frames|
      invariant read <= |frames|
      invariant seen == |Detections(frames[..read])|
      invariant samples == SampledBy(frames, read)
      invariant forall m :: 0 <= m < read ==> Continues(frames, m)
    {
      ghost var before := Detections(frames[..read]);
      samples, seen := SampleFrame(before, frames[read].faces, samples, seen);
      assert frames[..read + 1][..read] == frames[..read];
      assert Detections(frames[..read + 1]) == before + frames[read].faces;
      assert samples == SampledBy(frames, read + 1);
      if !Continues(frames, read) {
        read := read + 1;
        break;
      }
      read := read + 1;
    }
    SampledShape(Detections(frames[..read]));
  }

  // ---------------------------------------------------------------------
  // Reshaping the crops into feature rows
  // ---------------------------------------------------------------------

  /** A two-dimensional array: its column count and its rows. */
  datatype Matrix = Matrix(cols: nat, rows: seq<seq<int>>)

  predicate Rectangular(m: Matrix)
  {
    forall i :: 0 <= i < |m.rows| ==> |m.rows[i]| == m.cols
  }

  /** The values of a sequence of crops in memory order. */
  function Concat(xs: seq<seq<int>>): seq<int>
  {
    if xs == [] then [] else xs[0] + Concat(xs[1..])
  }

  /** The library's ValueErrors on the commit path. */
  datatype CommitError = ReshapeFailed | ColumnMismatch

  lemma MulSucc(k: int, w: int)
    ensures (k + 1) * w == k * w + w
  {
  }

  /**
   * `reshape(100, -1)` of the crops: the values in order, cut into 100 rows
   * of equal width; an error when they do not divide into 100 rows. No values
   * at all give 100 empty rows.
   */
  function Reshape(samples: seq<Pixels>): (r: Result<Matrix, CommitError>)
    ensures r.Ok? <==> |Concat(samples)| % SampleQuota == 0
    ensures r.Ok? ==> Rectangular(r.value) && |r.value.rows| == SampleQuota
                      && SampleQuota * r.value.cols == |Concat(samples)|
                      && Concat(r.value.rows) == Concat(samples)
  {
    var flat := Concat(samples);
    if |flat| % SampleQuota != 0 then Err(ReshapeFailed)
    else
      var w := |flat| / SampleQuota;
      assert SampleQuota * w == |flat|;
      Ok(Matrix(w, CutRows(flat, w, SampleQuota)))
  }

  /** The values cut into n consecutive rows of width w: the rows hold the values in order. */
  function CutRows(flat: seq<int>, w: nat, n: nat): (rows: seq<seq<int>>)
    requires |flat| == n * w
    ensures |rows| == n && forall i :: 0 <= i < n ==> |rows[i]| == w
    ensures Concat(rows) == flat
    decreases n
  {
    if n == 0 then []
    else
      MulSucc(n - 1, w);
      var rest := CutRows(flat[w..], w, n - 1);
      var rows := [flat[..w]] + rest;
      assert rows[1..] == rest;
      assert flat == flat[..w] + flat[w..];
      rows
  }

  /** Crops of one width w, concatenated, give |xs| * w values. */
  lemma {:induction false} ConcatLength(xs: seq<seq<int>>, w: nat)
    requires forall i :: 0 <= i < |xs| ==> |xs[i]| == w
    ensures |Concat(xs)| == |xs| * w
    decreases |xs|
  {
    if xs != [] {
      ConcatLength(xs[1..], w);
      MulSucc(|xs| - 1, w);
    }
  }

  /** Crops of one width w, concatenated and cut back into rows of width w, are the crops. */
  lemma {:induction false} CutConcat(xs: seq<seq<int>>, w: nat)
    requires forall i :: 0 <= i < |xs| ==> |xs[i]| == w
    ensures |Concat(xs)| == |xs| * w && CutRows(Concat(xs), w, |xs|) == xs
    decreases |xs|
  {
    ConcatLength(xs, w);
    if xs != [] {
      var c := Concat(xs);
      assert c == xs[0] + Concat(xs[1..]);
      assert c[..w] == xs[0] && c[w..] == Concat(xs[1..]);
      CutConcat(xs[1..], w);
      assert [xs[0]] + xs[1..] == xs;
    }
  }

  /** Every crop has the size the resize produces. */
  predicate AllCrops(samples: seq<Pixels>)
  {
    forall i :: 0 <= i < |samples| ==> |samples[i]| == CropSize
  }

  /**
   * Any batch of up to 100 crops reshapes into 100 rows of 75 values per crop,
   * so a short batch gives rows narrower than one crop, and no crop at all
   * gives rows of width 0.
   */
  lemma ReshapeCrops(samples: seq<Pixels>)
    requires |samples| <= SampleQuota && AllCrops(samples)
    ensures Reshape(samples).Ok?
    ensures Reshape(samples).value.cols == 75 * |samples|
    ensures |samples| < SampleQuota ==> Reshape(samples).value.cols != CropSize
  {
    ConcatLength(samples, CropSize);
    assert |Concat(samples)| == SampleQuota * (75 * |samples|);
  }

  /** An empty batch is no error: it reshapes into 100 empty rows. */
  lemma EmptyBatchReshapes()
    ensures Reshape([]) == Ok(Matrix(0, EmptyRows))
  {
    assert Concat([]) == [];
    var m := Reshape([]).value;
    assert m.cols == 0;
    assert forall i :: 0 <= i < SampleQuota ==> m.rows[i] == [];
    assert m.rows == EmptyRows;
  }

  /** A full batch of 100 crops reshapes into the crops themselves, one per row. */
  lemma ReshapeFullBatch(samples: seq<Pixels>)
    requires |samples| == SampleQuota && AllCrops(samples)
    ensures Reshape(samples) == Ok(Matrix(CropSize, samples))
  {
    ReshapeCrops(samples);
    CutConcat(samples, CropSize);
  }

  // ---------------------------------------------------------------------
  // The feature store: two files read, extended and overwritten
  // ---------------------------------------------------------------------

  /** n copies of `tag`. */
  function Repeat(tag: string, n: nat): (r: seq<string>)
    ensures |r| == n && forall i :: 0 <= i < n ==> r[i] == tag
  {
    seq(n, _ => tag)
  }

  /**
   * The new label list (add_faces.py:73-82): the stored list, or nothing when
   * the file is absent, followed by 100 copies of the label.
   */
  function AppendLabels(names: Option<seq<string>>, tag: string): (r: seq<string>)
    ensures var before := if names.Some? then names.value else [];
      |r| == |before| + SampleQuota && r[..|before|] == before
      && forall i :: |before| <= i < |r| ==> r[i] == tag
  {
    match names
    case None => Repeat(tag, SampleQuota)
    case Some(ns) => ns + Repeat(tag, SampleQuota)
  }

  /**
   * The new feature matrix (add_faces.py:86-94): the batch alone when the file
   * is absent, otherwise the stored rows followed by the batch, which fails
   * when the widths differ.
   */
  function AppendRows(faces: Option<Matrix>, batch: Matrix): (r: Result<Matrix, CommitError>)
    ensures faces.None? ==> r == Ok(batch)
    ensures faces.Some? ==> (r.Ok? <==> faces.value.cols == batch.cols)
    ensures faces.Some? && r.Ok? ==>
      r.value.cols == batch.cols && |r.value.rows| == |faces.value.rows| + |batch.rows|
      && r.value.rows[..|faces.value.rows|] == faces.value.rows
      && r.value.rows[|faces.value.rows|..] == batch.rows
    ensures r.Ok? && Rectangular(batch) && (faces.Some? ==> Rectangular(faces.value)) ==> Rectangular(r.value)
  {
    match faces
    case None => Ok(batch)
    case Some(m) =>
      if m.cols != batch.cols then Err(ColumnMismatch)
      else Ok(Matrix(m.cols, m.rows + batch.rows))
  }

  /** The two files hold as many labels as feature rows. */
  predicate Aligned(names: Option<seq<string>>, faces: Option<Matrix>)
  {
    names.Some? && faces.Some? && |names.value| == |faces.value.rows|
  }

  /**
   * A commit keeps the store aligned when it was aligned, or both files were
   * absent, and the rows could be appended.
   */
  lemma CommitKeepsAlignment(names: Option<seq<string>>, faces: Option<Matrix>, tag: string, batch: Matrix)
    requires Aligned(names, faces) || (names.None? && faces.None?)
    requires |batch.rows| == SampleQuota
    requires AppendRows(faces, batch).Ok?
    ensures |AppendLabels(names, tag)| == |AppendRows(faces, batch).value.rows|
  {
  }

  /**
   * The two files are checked separately: with only the label file missing,
   * a commit onto a non-empty feature matrix leaves fewer labels than rows.
   */
  lemma LoneMissingLabelsBreakAlignment(faces: Matrix, tag: string, batch: Matrix)
    requires |faces.rows| > 0 && faces.cols == batch.cols && |batch.rows| == SampleQuota
    ensures AppendRows(Some(faces), batch).Ok?
    ensures |AppendLabels(None, tag)| < |AppendRows(Some(faces), batch).value.rows|
  {
  }

  /**
   * With only the feature file missing, a commit onto a non-empty label list
   * leaves more labels than rows.
   */
  lemma LoneMissingFeaturesBreakAlignment(names: seq<string>, tag: string, batch: Matrix)
    requires |names| > 0 && |batch.rows| == SampleQuota
    ensures AppendRows(None, batch).Ok?
    ensures |AppendLabels(Some(names), tag)| > |AppendRows(None, batch).value.rows|
  {
  }

  /**
   * An early quit still commits, even with no crop at all: the label file
   * grows by 100 while the narrower (or empty) rows cannot be appended to an
   * existing matrix of full crops, so an aligned store ends up misaligned.
   */
  lemma EarlyQuitMisalignsStore(names: seq<string>, faces: Matrix, tag: string, samples: seq<Pixels>)
    requires Aligned(Some(names), Some(faces)) && faces.cols == CropSize
    requires |samples| < SampleQuota && AllCrops(samples)
    ensures Reshape(samples).Ok?
    ensures AppendRows(Some(faces), Reshape(samples).value).Err?
    ensures |AppendLabels(Some(names), tag)| == |faces.rows| + SampleQuota
  {
    ReshapeCrops(samples);
  }

  /** The feature store's two files; None for a file that does not exist. */
  class FeatureStore {
    var names: Option<seq<string>>
    var faces: Option<Matrix>

    /** The feature file always holds a two-dimensional array. */
    ghost predicate Valid()
      reads this
    {
      faces.Some? ==> Rectangular(faces.value)
    }

    constructor (names: Option<seq<string>>, faces: Option<Matrix>)
      requires faces.Some? ==> Rectangular(faces.value)
      ensures Valid() && this.names == names && this.faces == faces
    {
      this.names := names;
      this.faces := faces;
    }

    /**
     * The commit (add_faces.py:68-94): reshape the crops into 100 rows,
     * rewrite the label file, then rewrite the feature file. A reshape error
     * writes nothing; a width mismatch leaves the label file already
     * rewritten.
     */
    method Commit(tag: string, samples: seq<Pixels>) returns (r: Result<(), CommitError>)
      requires Valid()
      modifies this
      ensures Valid()
      ensures Reshape(samples).Err? ==>
        r == Err(ReshapeFailed) && names == old(names) && faces == old(faces)
      ensures Reshape(samples).Ok? ==>
        var appended := AppendRows(old(faces), Reshape(samples).value);
        && names == Some(AppendLabels(old(names), tag))
        && (appended.Ok? ==> r == Ok(()) && faces == Some(appended.value))
        && (appended.Err? ==> r == Err(ColumnMismatch) && faces == old(faces))
      ensures r.Ok? && (Aligned(old(names), old(faces)) || (old(names).None? && old(faces).None?)) ==>
        Aligned(names, faces)
      ensures r.Ok? ==>
        && faces.Some? && faces.value.cols == Reshape(samples).value.cols
        && forall i :: 0 <= i < |faces.value.rows| ==> |faces.value.rows[i]| == faces.value.cols
    {
      var batch := Reshape(samples);
      if batch.Err? {
        return Err(ReshapeFailed);
      }
      names := Some(AppendLabels(names, tag));
      var appended := AppendRows(faces, batch.value);
      if appended.Err? {
        return Err(ColumnMismatch);
      }
      if Aligned(old(names), old(faces)) || (old(names).None? && old(faces).None?) {
        CommitKeepsAlignment(old(names), old(faces), tag, batch.value);
      }
      faces := Some(appended.value);
      r := Ok(());
    }
  }

  /** An empty batch starts a new feature file of 100 empty rows, and cannot widen a stored one. */
  lemma EmptyBatchOutcomes(faces: Option<Matrix>, samples: seq<Pixels>)
    ensures samples == [] ==>
      && Reshape(samples).Ok?
      && (faces.None? ==> AppendRows(faces, Reshape(samples).value) == Ok(Matrix(0, EmptyRows)))
      && (faces.Some? && faces.value.cols != 0 ==> AppendRows(faces, Reshape(samples).value).Err?)
  {
    if samples == [] {
      EmptyBatchReshapes();
    }
  }

  /**
   * Crops reshape without error; a short batch of them cannot be appended to
   * a stored matrix of full crops.
   */
  lemma CropBatchOutcomes(faces: Option<Matrix>, samples: seq<Pixels>)
    requires |samples| <= SampleQuota
    ensures AllCrops(samples) ==> Reshape(samples).Ok?
    ensures 0 < |samples| < SampleQuota && AllCrops(samples) && faces.Some? && faces.value.cols == CropSize ==>
      Reshape(samples).Ok? && AppendRows(faces, Reshape(samples).value).Err?
  {
    if AllCrops(samples) {
      ReshapeCrops(samples);
    }
  }

  /**
   * A full batch into an aligned store of full-crop rows, or into no store,
   * appends the crops as rows and keeps the store aligned.
   */
  lemma FullBatchOutcomes(names: Option<seq<string>>, faces: Option<Matrix>, tag: string, samples: seq<Pixels>)
    requires |samples| == SampleQuota && AllCrops(samples)
    requires (Aligned(names, faces) && faces.value.cols == CropSize) || (names.None? && faces.None?)
    ensures var appended := AppendRows(faces, Matrix(CropSize, samples));
      && appended.Ok?
      && appended.value.rows == (if faces.Some? then faces.value.rows else []) + samples
      && Aligned(Some(AppendLabels(names, tag)), Some(appended.value))
  {
    if faces.Some? {
      assert AppendRows(faces, Matrix(CropSize, samples)) == Ok(Matrix(CropSize, faces.value.rows + samples));
    } else {
      assert [] + samples == samples;
    }
    CommitKeepsAlignment(names, faces, tag, Matrix(CropSize, samples));
  }

  /**
   * What a commit leaves in the store for each kind of captured batch, from
   * the outcome `FeatureStore.Commit` promises: the files before (`names`,
   * `faces`) and after (`names'`, `faces'`).
   */
  lemma CommitOutcomes(names: Option<seq<string>>, faces: Option<Matrix>, tag: string, samples: seq<Pixels>,
                       r: Result<(), CommitError>, names': Option<seq<string>>, faces': Option<Matrix>)
    requires |samples| <= SampleQuota
    requires Reshape(samples).Err? ==> r == Err(ReshapeFailed) && names' == names && faces' == faces
    requires Reshape(samples).Ok? ==>
      var appended := AppendRows(faces, Reshape(samples).value);
      && names' == Some(AppendLabels(names, tag))
      && (appended.Ok? ==> r == Ok(()) && faces' == Some(appended.value))
      && (appended.Err? ==> r == Err(ColumnMismatch) && faces' == faces)
    ensures AllCrops(samples) ==> names' == Some(AppendLabels(names, tag))
    ensures samples == [] && faces.None? ==>
      r == Ok(()) && faces' == Some(Matrix(0, EmptyRows))
    ensures samples == [] && faces.Some? && faces.value.cols != 0 ==>
      r == Err(ColumnMismatch) && faces' == faces
    ensures |samples| == SampleQuota && AllCrops(samples)
            && ((Aligned(names, faces) && faces.value.cols == CropSize) || (names.None? && faces.None?)) ==>
      && r == Ok(())
      && faces'.Some? && faces'.value.rows == (if faces.Some? then faces.value.rows else []) + samples
      && Aligned(names', faces')
    ensures 0 < |samples| < SampleQuota && AllCrops(samples)
            && Aligned(names, faces) && faces.value.cols == CropSize ==>
      r == Err(ColumnMismatch) && faces' == faces
  {
    EmptyBatchOutcomes(faces, samples);
    CropBatchOutcomes(faces, samples);
    if |samples| == SampleQuota && AllCrops(samples)
       && ((Aligned(names, faces) && faces.value.cols == CropSize) || (names.None? && faces.None?)) {
      ReshapeFullBatch(samples);
      FullBatchOutcomes(names, faces, tag, samples);
    }
  }

  /**
   * The whole registration: capture, build the label, commit. Whatever was
   * captured is committed: the label file always grows by 100 labels. No crop
   * at all gives 100 empty feature rows, which start a new feature file but
   * cannot be appended to a stored one. A full batch of full-size crops into
   * an aligned store of full-size rows, or into no store, appends the crops as
   * rows and keeps the store aligned. A short batch of crops into an aligned
   * store of full-size rows rewrites the labels but fails to append the rows;
   * into no store it starts a feature file of 100 rows narrower than a crop.
   * Returns the commit's result, the crops and the number of frames read.
   */
  method Register(store: FeatureStore, roll: string, name: string, department: string, semester: string,
                  frames: seq<Frame>) returns (r: Result<(), CommitError>, samples: seq<Pixels>, read: nat)
    requires store.Valid()
    modifies store
    ensures store.Valid()
    ensures |samples| <= SampleQuota
    ensures read <= |frames| && samples == SampledBy(frames, read)
    ensures read == |frames| || (0 < read && (frames[read - 1].quit || |samples| == SampleQuota))
    ensures forall m :: 0 <= m < read - 1 ==> Continues(frames, m)
    ensures AllCrops(samples) ==>
      store.names == Some(AppendLabels(old(store.names), BuildLabel(roll, name, department, semester)))
    ensures samples == [] && old(store.faces).None? ==>
      r == Ok(()) && store.faces == Some(Matrix(0, EmptyRows))
    ensures samples == [] && old(store.faces).Some? && old(store.faces).value.cols != 0 ==>
      r == Err(ColumnMismatch) && store.faces == old(store.faces)
    ensures |samples| == SampleQuota && AllCrops(samples)
            && ((Aligned(old(store.names), old(store.faces)) && old(store.faces).value.cols == CropSize)
                || (old(store.names).None? && old(store.faces).None?)) ==>
      && r == Ok(())
      && store.faces.Some? && store.faces.value.rows == (if old(store.faces).Some? then old(store.faces).value.rows else []) + samples
      && Aligned(store.names, store.faces)
    ensures 0 < |samples| < SampleQuota && AllCrops(samples)
            && Aligned(old(store.names), old(store.faces)) && old(store.faces).value.cols == CropSize ==>
      r == Err(ColumnMismatch) && store.faces == old(store.faces)
    ensures 0 < |samples| < SampleQuota && AllCrops(samples) && old(store.faces).None? ==>
      && r == Ok(()) && store.faces.Some?
      && store.faces.value.cols == 75 * |samples| && |store.faces.value.rows| == SampleQuota
  {
    var seen;
    samples, seen, read := CollectSamples(frames);
    var tag := BuildLabel(roll, name, department, semester);
    r := store.Commit(tag, samples);
    CommitOutcomes(old(store.names), old(store.faces), tag, samples, r, store.names, store.faces);
    if 0 < |samples| < SampleQuota && AllCrops(samples) && old(store.faces).None? {
      ReshapeCrops(samples);
    }
  }
}

=== FILE: labels.dfy ===
/**
 * The composite identity label: the classifier's target class is the string
 * `roll_name_department_semester`, built once at enrollment (add_faces.py)
 * and split again on every recognition (test.py).
 */
module Labels {
  import opened Wrappers

  /** The field separator of a composite label. */
  const Delimiter: char := '_'

  /** What the recognizer fills in for a department or semester the label lacks. */
  const NotAvailable: string := "N/A"

  datatype Identity = Identity(roll: string, name: string, department: string, semester: string)

  /** `sep.join(parts)`: the parts with one separator between neighbours. */
  function Join(parts: seq<string>, sep: char): string
  {
    if |parts| == 0 then ""
    else if |parts| == 1 then parts[0]
    else parts[0] + [sep] + Join(parts[1..], sep)
  }

  /**
   * `s.split(sep)` for a one-character separator: never empty, no part holds
   * the separator, and joining the parts gives `s` back.
   */
  function Split(s: string, sep: char): (parts: seq<string>)
    ensures |parts| >= 1
    ensures forall i :: 0 <= i < |parts| ==> sep !in parts[i]
    ensures Join(parts, sep) == s
    decreases |s|
  {
    if s == [] then [""]
    else
      var rest := Split(s[1..], sep);
      if s[0] == sep then
        assert ([""] + rest)[1..] == rest;
        [""] + rest
      else
        var parts := [[s[0]] + rest[0]] + rest[1..];
        assert parts[1..] == rest[1..];
        assert |rest| > 1 ==> Join(rest, sep) == rest[0] + [sep] + Join(rest[1..], sep);
        assert s == [s[0]] + s[1..];
        parts
  }

  /** A string without the separator splits into itself alone. */
  lemma SplitField(p: string, sep: char)
    requires sep !in p
    ensures Split(p, sep) == [p]
    decreases |p|
  {
  }

  /** A separator-free field followed by the separator splits off as the first part. */
  lemma {:induction false} SplitAfterField(p: string, sep: char, t: string)
    requires sep !in p
    ensures Split(p + [sep] + t, sep) == [p] + Split(t, sep)
    decreases |p|
  {
    var s := p + [sep] + t;
    if p == [] {
      assert s[1..] == t;
    } else {
      assert s[1..] == p[1..] + [sep] + t;
      SplitAfterField(p[1..], sep, t);
      assert [p[0]] + p[1..] == p;
    }
  }

  /** Splitting undoes joining when no part holds the separator. */
  lemma {:induction false} SplitJoin(parts: seq<string>, sep: char)
    requires |parts| >= 1
    requires forall i :: 0 <= i < |parts| ==> sep !in parts[i]
    ensures Split(Join(parts, sep), sep) == parts
    decreases |parts|
  {
    if |parts| == 1 {
      SplitField(parts[0], sep);
    } else {
      SplitJoin(parts[1..], sep);
      SplitAfterField(parts[0], sep, Join(parts[1..], sep));
      assert [parts[0]] + parts[1..] == parts;
    }
  }

  /** The label enrollment stores for an identity (add_faces.py:32). */
  function BuildLabel(roll: string, name: string, department: string, semester: string): (composite: string)
    ensures composite == Join([roll, name, department, semester], Delimiter)
  {
    assert [department, semester][1..] == [semester];
    assert [name, department, semester][1..] == [department, semester];
    assert [roll, name, department, semester][1..] == [name, department, semester];
    var tail := department + [Delimiter] + semester;
    assert Join([department, semester], Delimiter) == tail;
    assert Join([name, department, semester], Delimiter) == name + [Delimiter] + tail;
    roll + [Delimiter] + name + [Delimiter] + department + [Delimiter] + semester
  }

  /**
   * The recognizer's reading of a label (test.py:140-144): with four or more
   * parts the first four are the fields and the rest is dropped; with two or
   * three, department and semester are "N/A"; with one part, indexing the
   * name raises and the detection is skipped (None).
   */
  function ParseLabel(text: string): (r: Option<Identity>)
    ensures r.None? <==> Delimiter !in text
    ensures r.Some? ==> Delimiter !in r.value.roll && Delimiter !in r.value.name
    ensures r.Some? ==> |r.value.roll| < |text| && text[..|r.value.roll|] == r.value.roll
                        && text[|r.value.roll|] == Delimiter
  {
    var parts := Split(text, Delimiter);
    assert |parts| >= 2 ==> text == parts[0] + [Delimiter] + Join(parts[1..], Delimiter);
    if |parts| >= 4 then Some(Identity(parts[0], parts[1], parts[2], parts[3]))
    else if |parts| >= 2 then Some(Identity(parts[0], parts[1], NotAvailable, NotAvailable))
    else None
  }

  /** How the recognizer reads any label made of two or more separator-free fields. */
  lemma ParseJoined(parts: seq<string>)
    requires |parts| >= 2
    requires forall i :: 0 <= i < |parts| ==> Delimiter !in parts[i]
    ensures |parts| >= 4 ==>
      ParseLabel(Join(parts, Delimiter)) == Some(Identity(parts[0], parts[1], parts[2], parts[3]))
    ensures |parts| < 4 ==>
      ParseLabel(Join(parts, Delimiter)) == Some(Identity(parts[0], parts[1], NotAvailable, NotAvailable))
  {
    SplitJoin(parts, Delimiter);
  }

  /** The label enrollment builds parses back to the same four fields. */
  lemma ParseBuildRoundTrip(roll: string, name: string, department: string, semester: string)
    requires Delimiter !in roll && Delimiter !in name
    requires Delimiter !in department && Delimiter !in semester
    ensures ParseLabel(BuildLabel(roll, name, department, semester))
            == Some(Identity(roll, name, department, semester))
  {
    ParseJoined([roll, name, department, semester]);
  }
}

=== FILE: wrappers.dfy ===
/** Optional values and results with an error, shared by the other modules. */
module Wrappers {
  datatype Option<T> = None | Some(value: T)

  datatype Result<T, E> = Ok(value: T) | Err(error: E)
}
